=== FILE: README.md ===
# Element screenshot geometry

A Dafny model of the geometry behind Lighthouse's element screenshot preview.
The report shows a highlighted page element inside a fixed 412x300 display
area. It cuts that area out of the full-page screenshot. The renderer picks
which window of the screenshot to show so that the element is centred. If
centring would run past the screenshot's edge, the window is pinned to that
edge instead. The renderer then places a marker box over the element and
builds a clip path. The clip path darkens everything in the display area
except the element.

Modules:

- `Geometry` (`geometry.dfy`): the `Point`, `Size` and `Rect` values, all over `real`.
- `ScreenshotPosition` (`position.dfy`): `getRectCenterPoint`, `containWithin` and `getScreenshotPositionDetails`.
- `ClipPath` (`clip_path.dfy`): the clip fractions computed in `render` and the four polygons written by `renderClipPath`. Each polygon is an axis-aligned `Quad` with its vertices in the order the markup lists them.
- `ElementScreenshot` (`render.dfy`): the arithmetic of `render` put together for the fixed 412x300 display area.

Behaviour modelled as the code has it:

- `containWithin` with an inverted range (`lo > hi`) returns `hi`. This is because the upper bound is tested second. When the display area is wider or taller than the screenshot, the window origin on that axis is therefore `screenshot − display`, which is negative. The model has no precondition forbidding this case. It states the result instead.
- The clip fractions are not clamped. An element partly outside the display area gives fractions outside [0, 1]. `ClipCoversOutsideBox` and `ClipSparesBoxInterior` hold for unclamped fractions. So, for every element, the mask covers the interior of the display area except the marker (`RenderMasksInteriorAllButElement`). The exact complement on the closed display area (`ClipRegionIsComplementOfBox`) needs fractions in [0, 1]. `UnclampedBoxLeavesBorderMasked` shows that otherwise it can fail on the display area's border, where a band's outline reaches a point inside the box.
- `RenderNearRightEdge` works one layout through: a 50x30 element at (1000, 800) on a 1200x2000 screenshot. The centring window would start at x = 819, past the limit 1200 − 412 = 788, so the window is pinned to x = 788. Vertically it is centred at y = 800 + 15 − 150 = 665. The marker therefore sits at (212, 135).

## Model

| member | source | states |
|---|---|---|
| ScreenshotPosition.RectCenterPoint | lighthouse-core/report/html/renderer/element-screenshot-renderer.js:30-35 | the centre is equally far from the left and right edges, and equally far from the top and bottom edges |
| ScreenshotPosition.CenterInsideRect | lighthouse-core/report/html/renderer/element-screenshot-renderer.js:30-35 | a rectangle with non-negative width and height contains its centre |
| ScreenshotPosition.ContainWithin | lighthouse-core/report/html/renderer/element-screenshot-renderer.js:37-45 | for lo ≤ hi the result lies in [lo, hi]; an in-range value is returned unchanged; a value below lo gives lo; a value above hi gives hi; an inverted range always gives hi |
| ScreenshotPosition.ContainWithinIsMinOfMax | lighthouse-core/report/html/renderer/element-screenshot-renderer.js:37-45 | the clamp equals min(max(value, lo), hi) for every range |
| ScreenshotPosition.ContainWithinIdempotent | lighthouse-core/report/html/renderer/element-screenshot-renderer.js:37-45 | clamping twice gives the same result as clamping once |
| ScreenshotPosition.VisibleEdge | lighthouse-core/report/html/renderer/element-screenshot-renderer.js:51-58 | on one axis the window lies inside the screenshot when the display fits; otherwise the window's far edge meets the screenshot's far edge |
| ScreenshotPosition.GetScreenshotPositionDetails | lighthouse-core/report/html/renderer/element-screenshot-renderer.js:47-70 | window origin plus highlight offset gives back the highlight's left and top; the origin lies in [0, screenshot − display] on each axis where the display fits, and equals screenshot − display where it does not |
| ScreenshotPosition.PositionCentresHighlight | lighthouse-core/report/html/renderer/element-screenshot-renderer.js:50-58 | when the centring origin is in range on an axis, the window's middle is the highlight's centre |
| ScreenshotPosition.PositionPinsToEdges | lighthouse-core/report/html/renderer/element-screenshot-renderer.js:51-58 | on an axis where the display fits, a centre closer than half the display to the start pins the origin to 0; on every axis, a centre closer than half the display to the end pins it to screenshot − display |
| ScreenshotPosition.VisibleEdgeTrichotomy | lighthouse-core/report/html/renderer/element-screenshot-renderer.js:51-58 | the window is centred on the highlight if and only if the centring origin is in range; otherwise it is pinned to the start or the end |
| ScreenshotPosition.HighlightFullyVisible | lighthouse-core/report/html/renderer/element-screenshot-renderer.js:47-70 | an element inside the screenshot and no larger than the display area is shown whole: its offset keeps it within the display area |
| ScreenshotPosition.PositionNearTopLeftCorner | lighthouse-core/report/html/renderer/element-screenshot-renderer.js:47-70 | a 10x10 element at (5, 5) on a 1200x2000 screenshot, shown in the 412x300 display area, gets window (0, 0) and offset (5, 5) |
| ClipPath.GetClipFractions | lighthouse-core/report/html/renderer/element-screenshot-renderer.js:134-137 | scaling the fractions back by the display size recovers the marker's edges; bottom − top = height/displayHeight and right − left = width/displayWidth; a non-negative size gives top ≤ bottom and left ≤ right |
| ClipPath.ClipFractionsInUnitRange | lighthouse-core/report/html/renderer/element-screenshot-renderer.js:134-137 | each fraction is on the in-range side of 0 or 1 if and only if the matching marker edge lies inside the display area |
| ClipPath.ClipPolygons | lighthouse-core/report/html/renderer/element-screenshot-renderer.js:78-81 | the clip path has four polygons, and each is an axis-aligned rectangle |
| ClipPath.ClipCoversOutsideBox | lighthouse-core/report/html/renderer/element-screenshot-renderer.js:78-81 | every display point not strictly inside the highlight box is covered by some polygon, for unclamped fractions in either order |
| ClipPath.ClipSparesBoxInterior | lighthouse-core/report/html/renderer/element-screenshot-renderer.js:78-81 | no polygon covers a point strictly inside both the box and the display area |
| ClipPath.ClipRegionIsComplementOfBox | lighthouse-core/report/html/renderer/element-screenshot-renderer.js:78-81 | with every fraction in [0, 1], in either order, a point of the unit square is covered if and only if it is not strictly inside the box |
| ClipPath.UnclampedBoxLeavesBorderMasked | lighthouse-core/report/html/renderer/element-screenshot-renderer.js:78-81 | with an unclamped left fraction, a point on the display's left edge strictly inside the box lies on the left band's outline, so the closed-box convention counts it as covered; an illustration of that convention, not of what a renderer draws |
| ElementScreenshot.Render | lighthouse-core/report/html/renderer/element-screenshot-renderer.js:100-139 | the image is 412x300; the marker has the element's size and, after the background offset, lies exactly on the element; on each axis where the screenshot is at least as large as the display area, the background never scrolls past it; where the centring window fits, the marker's centre is the display area's centre; an element within half the display of the screenshot's start shows the start (where the display fits), and one within half the display of its end shows the end; the clip is built from the marker |
| ElementScreenshot.RenderMasksAllButElement | lighthouse-core/report/html/renderer/element-screenshot-renderer.js:106-139 | for an element inside the screenshot and no larger than the display area, a point of the closed display area is masked if and only if it is not strictly inside the marker |
| ElementScreenshot.RenderMasksInteriorAllButElement | lighthouse-core/report/html/renderer/element-screenshot-renderer.js:106-139 | for every element and screenshot, a point strictly inside the display area is masked if and only if it is not strictly inside the marker |
| ElementScreenshot.RenderNearRightEdge | lighthouse-core/report/html/renderer/element-screenshot-renderer.js:100-137 | a 50x30 element at (1000, 800) on a 1200x2000 screenshot gets window (788, 665), marker offset (212, 135) and fractions (0.45, 0.55, 212/412, 262/412) |
| ElementScreenshot.ClipFractionsOfMarker | lighthouse-core/report/html/renderer/element-screenshot-renderer.js:134-137 | a 50x30 marker at (212, 150) gives fractions (0.5, 0.6, 212/412, 262/412) |

## Left out

- DOM and template work (`cloneTemplate`, `find`, `querySelector`, `createElement`, `innerHTML`): presentation plumbing with no geometry in it.
- Style strings (`'px'`, `url(...)`, the clip-path reference). The only arithmetic there is negating the window origin for the background position, which `Render` models.
- The SVG markup of the clip path. The polygons are modelled as vertex lists, and their filled region as the closed box spanned by opposite corners. This is an idealisation that agrees with what a renderer fills away from the polygon's outline.
- Outline and zero-area polygons: `Quad.Fills` counts points on a polygon's outline as covered, and a zero-area band (when `top` = 0, `bottom` = 1, `left` = 0 or `right` = 1) as covering its segment. A renderer may leave such points unclipped. This matters only on the box's edges and the display area's border. It affects the "if" direction of `ClipRegionIsComplementOfBox` on the box's edges and all of `UnclampedBoxLeavesBorderMasked`. Only `ClipSparesBoxInterior` and the "only if" direction of the three if-and-only-if lemmas (`ClipRegionIsComplementOfBox`, `RenderMasksAllButElement`, `RenderMasksInteriorAllButElement`) are independent of it. `ClipCoversOutsideBox`, the "if" direction of `RenderMasksAllButElement`, and the "if" direction of `RenderMasksInteriorAllButElement` also depend on it, because they reach points on the box's or marker's edges. Those points are masked only through a band's outline.
- The random clip id (`Math.random`): it is nondeterministic and only names the clip path.
- The module export and global-registration shim.
- IEEE-754 rounding, NaN and infinities of JavaScript numbers. All quantities are exact reals.
- GetClipFractions: requires a display area with positive width and height. JavaScript would produce infinities or NaN for a zero extent, and the renderer only uses 412x300.

=== FILE: clip_path.dfy ===
/** The mask drawn over the display area: the highlighted element's box as
    fractions of the display size, and the four polygons of the clip path
    that darken everything outside that box. Fractions are deliberately left
    unclamped: an element that is partly or wholly outside the display area
    gives fractions below 0 or above 1. */
module ClipPath {
  import opened Geometry

  /** The highlighted box, in units of the display area's width and height. */
  datatype ClipFractions = ClipFractions(top: real, bottom: real, left: real, right: real)

  /** Converts `marker`, the highlighted element in display-area pixels, into
      fractions of the display size. Scaling the fractions back by the display
      size recovers the marker's edges exactly. */
  function GetClipFractions(marker: Rect, display: Size): (f: ClipFractions)
    requires Positive(display)
    ensures f.top * display.height == marker.top
    ensures f.bottom * display.height == marker.Bottom()
    ensures f.left * display.width == marker.left
    ensures f.right * display.width == marker.Right()
    ensures f.bottom - f.top == marker.height / display.height
    ensures f.right - f.left == marker.width / display.width
    ensures marker.height >= 0.0 ==> f.top <= f.bottom
    ensures marker.width >= 0.0 ==> f.left <= f.right
  {
    var top := marker.top / display.height;
    var bottom := top + marker.height / display.height;
    var left := marker.left / display.width;
    var right := left + marker.width / display.width;
    ClipFractions(top, bottom, left, right)
  }

  /** The fractions lie in [0, 1] exactly when the marker lies inside the
      display area. */
  lemma ClipFractionsInUnitRange(marker: Rect, display: Size)
    requires Positive(display)
    ensures var f := GetClipFractions(marker, display);
            && (0.0 <= f.top <==> 0.0 <= marker.top)
            && (f.bottom <= 1.0 <==> marker.Bottom() <= display.height)
            && (0.0 <= f.left <==> 0.0 <= marker.left)
            && (f.right <= 1.0 <==> marker.Right() <= display.width)
  {
    var f := GetClipFractions(marker, display);
    ScaleOrder(f.top, 0.0, display.height);
    ScaleOrder(f.bottom, 1.0, display.height);
    ScaleOrder(f.left, 0.0, display.width);
    ScaleOrder(f.right, 1.0, display.width);
  }

  /** Multiplying by a positive factor keeps the order of two reals. */
  lemma ScaleOrder(a: real, b: real, k: real)
    requires k > 0.0
    ensures a <= b <==> a * k <= b * k
    ensures a < b <==> a * k < b * k
  {
  }

  /** A four-vertex polygon of the clip path, vertices in drawing order, in
      the clip path's object-bounding-box units (the display area is the unit
      square). */
  datatype Quad = Quad(a: Point, b: Point, c: Point, d: Point) {

    /** Consecutive edges alternate horizontal and vertical: the polygon is
        an axis-aligned rectangle, possibly degenerate, with `a` and `c` as
        opposite corners. */
    predicate AxisAligned() {
      a.y == b.y && b.x == c.x && c.y == d.y && d.x == a.x
    }

    /** `p` lies in the region an axis-aligned quad fills: the closed box
        spanned by its opposite corners, whichever way round they are. The
        closed box agrees with what a renderer fills away from the polygon's
        outline; points on the outline, and zero-area quads, count as
        covered here. */
    predicate Fills(p: Point) {
      && Min(a.x, c.x) <= p.x <= Max(a.x, c.x)
      && Min(a.y, c.y) <= p.y <= Max(a.y, c.y)
    }
  }

  /** The four polygons of the clip path: a band above the box, a band below
      it, and bands to its left and right between the box's top and bottom. */
  function ClipPolygons(f: ClipFractions): (qs: seq<Quad>)
    ensures |qs| == 4
    ensures forall i :: 0 <= i < |qs| ==> qs[i].AxisAligned()
  {
    [ Quad(Point(0.0, 0.0), Point(1.0, 0.0), Point(1.0, f.top), Point(0.0, f.top)),
      Quad(Point(0.0, f.bottom), Point(1.0, f.bottom), Point(1.0, 1.0), Point(0.0, 1.0)),
      Quad(Point(0.0, f.top), Point(f.left, f.top), Point(f.left, f.bottom), Point(0.0, f.bottom)),
      Quad(Point(f.right, f.top), Point(1.0, f.top), Point(1.0, f.bottom), Point(f.right, f.bottom)) ]
  }

  /** `p` is in the clip region: some polygon of the clip path fills it. */
  predicate InClipRegion(qs: seq<Quad>, p: Point) {
    exists i :: 0 <= i < |qs| && qs[i].Fills(p)
  }

  /** `p` lies in the closed unit square, the display area in clip units. */
  predicate InUnitSquare(p: Point) {
    0.0 <= p.x <= 1.0 && 0.0 <= p.y <= 1.0
  }

  /** `p` lies in the open unit square. */
  predicate InsideUnitSquare(p: Point) {
    0.0 < p.x < 1.0 && 0.0 < p.y < 1.0
  }

  /** `p` lies strictly inside the highlighted box. */
  predicate InsideBox(f: ClipFractions, p: Point) {
    f.left < p.x < f.right && f.top < p.y < f.bottom
  }

  /** Every point of the display area that is not strictly inside the box is
      masked, whether or not the fractions lie in [0, 1] and whichever way
      round they are. */
  lemma ClipCoversOutsideBox(f: ClipFractions, p: Point)
    requires InUnitSquare(p) && !InsideBox(f, p)
    ensures InClipRegion(ClipPolygons(f), p)
  {
    var qs := ClipPolygons(f);
    if p.y <= f.top {
      assert qs[0].Fills(p);
    } else if p.y >= f.bottom {
      assert qs[1].Fills(p);
    } else if p.x <= f.left {
      assert qs[2].Fills(p);
    } else {
      assert qs[3].Fills(p);
    }
  }

  /** No polygon reaches a point strictly inside both the box and the display
      area, whether or not the fractions lie in [0, 1]. */
  lemma ClipSparesBoxInterior(f: ClipFractions, p: Point)
    requires InsideUnitSquare(p) && InsideBox(f, p)
    ensures !InClipRegion(ClipPolygons(f), p)
  {
  }

  /** With every fraction inside [0, 1], the clip region is exactly the part
      of the display area outside the open box. Inverted fractions give an
      empty box, and then the whole display area is covered. */
  lemma ClipRegionIsComplementOfBox(f: ClipFractions, p: Point)
    requires 0.0 <= f.top <= 1.0 && 0.0 <= f.bottom <= 1.0
    requires 0.0 <= f.left <= 1.0 && 0.0 <= f.right <= 1.0
    requires InUnitSquare(p)
    ensures InClipRegion(ClipPolygons(f), p) <==> !InsideBox(f, p)
  {
    if InsideBox(f, p) {
      ClipSparesBoxInterior(f, p);
    } else {
      ClipCoversOutsideBox(f, p);
    }
  }

  /** An illustration of the closed-box convention of `Fills`, not a claim
      about what a renderer draws: with unclamped fractions the exact
      complement of `ClipRegionIsComplementOfBox` fails on the display area's
      border. Here the box starts left of the display area, so the left band
      is the rectangle [-0.5, 0] x [0.25, 0.75], and its outline x = 0 counts
      as covering a point on the display's left edge that lies strictly inside
      the box. */
  lemma UnclampedBoxLeavesBorderMasked()
    ensures var f := ClipFractions(0.25, 0.75, -0.5, 0.5);
            var p := Point(0.0, 0.5);
            InsideBox(f, p) && InClipRegion(ClipPolygons(f), p)
  {
    var f := ClipFractions(0.25, 0.75, -0.5, 0.5);
    assert ClipPolygons(f)[2].Fills(Point(0.0, 0.5));
  }
}

=== FILE: geometry.dfy ===
/** Plain geometric values shared by the screenshot positioning and the
    clip-path arithmetic. Every quantity is an exact real: JavaScript numbers
    are treated as ideal reals, so rounding never enters the model. */
module Geometry {

  /** A point; in positioning code `x` plays the role of `left` and `y` of `top`. */
  datatype Point = Point(x: real, y: real)

  /** A width/height pair, such as the display area or the full-page screenshot. */
  datatype Size = Size(width: real, height: real)

  /** The bounding box of a page element (LH.Artifacts.Rect). */
  datatype Rect = Rect(left: real, top: real, width: real, height: real) {

    function Right(): real {
      left + width
    }

    function Bottom(): real {
      top + height
    }

    /** A rectangle with no negative extent. */
    predicate WellFormed() {
      width >= 0.0 && height >= 0.0
    }

    /** `p` lies in the closed rectangle. */
    predicate Contains(p: Point) {
      left <= p.x <= Right() && top <= p.y <= Bottom()
    }

    /** `p` lies in the open interior of the rectangle. */
    predicate StrictlyContains(p: Point) {
      left < p.x < Right() && top < p.y < Bottom()
    }
  }

  /** A size both of whose extents can be divided by. */
  predicate Positive(s: Size) {
    s.width > 0.0 && s.height > 0.0
  }

  function Min(a: real, b: real): (m: real)
    ensures m <= a && m <= b
    ensures m == a || m == b
  {
    if a <= b then a else b
  }

  function Max(a: real, b: real): (m: real)
    ensures a <= m && b <= m
    ensures m == a || m == b
  {
    if a <= b then b else a
  }
}

=== FILE: position.dfy ===
/** Choosing the window of the full-page screenshot that the fixed-size display
    area shows: centre the highlighted element when possible, otherwise pin the
    window to the screenshot's edge so that no blank space is shown. */
module ScreenshotPosition {
  import opened Geometry

  /** The centre of `rect`: the point equally far from its left and right
      edges and from its top and bottom edges. */
  function RectCenterPoint(rect: Rect): (c: Point)
    ensures c.x - rect.left == rect.Right() - c.x
    ensures c.y - rect.top == rect.Bottom() - c.y
  {
    Point(rect.left + rect.width / 2.0, rect.top + rect.height / 2.0)
  }

  /** A rectangle with no negative extent contains its own centre. */
  lemma CenterInsideRect(rect: Rect)
    requires rect.WellFormed()
    ensures rect.Contains(RectCenterPoint(rect))
  {
  }

  /** Clamps `value` into `[lo, hi]`. The lower bound is tested first and the
      upper bound second, so an inverted range (`lo > hi`) yields `hi`. */
  function ContainWithin(value: real, lo: real, hi: real): (r: real)
    ensures lo <= hi ==> lo <= r <= hi
    ensures lo <= value <= hi ==> r == value
    ensures value < lo && lo <= hi ==> r == lo
    ensures value > hi ==> r == hi
    ensures lo > hi ==> r == hi
  {
    var raised := if value < lo then lo else value;
    if raised > hi then hi else raised
  }

  /** Independent reference: the clamp is `min(max(value, lo), hi)` for every
      range, ordered or not. */
  lemma ContainWithinIsMinOfMax(value: real, lo: real, hi: real)
    ensures ContainWithin(value, lo, hi) == Min(Max(value, lo), hi)
  {
  }

  /** Clamping a clamped value changes nothing, even for an inverted range. */
  lemma ContainWithinIdempotent(value: real, lo: real, hi: real)
    ensures ContainWithin(ContainWithin(value, lo, hi), lo, hi) == ContainWithin(value, lo, hi)
  {
  }

  /** Where the visible window starts on one axis, given the highlight's
      centre on that axis and the display and screenshot extents. */
  function VisibleEdge(center: real, display: real, screenshot: real): (e: real)
    ensures display <= screenshot ==> 0.0 <= e && e + display <= screenshot
    ensures display > screenshot ==> e + display == screenshot
  {
    ContainWithin(center - display / 2.0, 0.0, screenshot - display)
  }

  /** The two results of positioning: where the screenshot's visible window
      starts, and where the highlighted element starts relative to it, both
      in screenshot pixels. `x` is the left coordinate and `y` the top one. */
  datatype PositionDetails = PositionDetails(
    screenshotPositionInDisplayArea: Point,
    highlightPositionInDisplayArea: Point)

  /** Positions the display area over the screenshot, centring on the
      highlight where the screenshot's edges allow it. */
  function GetScreenshotPositionDetails(highlight: Rect, display: Size, screenshot: Size): (d: PositionDetails)
    // Window origin plus the highlight's offset is the highlight's own origin.
    ensures d.screenshotPositionInDisplayArea.x + d.highlightPositionInDisplayArea.x == highlight.left
    ensures d.screenshotPositionInDisplayArea.y + d.highlightPositionInDisplayArea.y == highlight.top
    // The window stays inside the screenshot on every axis where it fits.
    ensures display.width <= screenshot.width ==>
      0.0 <= d.screenshotPositionInDisplayArea.x <= screenshot.width - display.width
    ensures display.height <= screenshot.height ==>
      0.0 <= d.screenshotPositionInDisplayArea.y <= screenshot.height - display.height
    // Where it does not fit, the window's far edge meets the screenshot's.
    ensures display.width > screenshot.width ==>
      d.screenshotPositionInDisplayArea.x == screenshot.width - display.width
    ensures display.height > screenshot.height ==>
      d.screenshotPositionInDisplayArea.y == screenshot.height - display.height
  {
    var center := RectCenterPoint(highlight);
    var leftEdge := VisibleEdge(center.x, display.width, screenshot.width);
    var topEdge := VisibleEdge(center.y, display.height, screenshot.height);
    PositionDetails(
      Point(leftEdge, topEdge),
      Point(highlight.left - leftEdge, highlight.top - topEdge))
  }

  /** When the window that centres the highlight lies inside the screenshot on
      an axis, that window is chosen: its middle is the highlight's centre. */
  lemma PositionCentresHighlight(highlight: Rect, display: Size, screenshot: Size)
    ensures var c := RectCenterPoint(highlight);
            var o := GetScreenshotPositionDetails(highlight, display, screenshot).screenshotPositionInDisplayArea;
            && (0.0 <= c.x - display.width / 2.0 <= screenshot.width - display.width ==>
                  o.x + display.width / 2.0 == c.x)
            && (0.0 <= c.y - display.height / 2.0 <= screenshot.height - display.height ==>
                  o.y + display.height / 2.0 == c.y)
  {
  }

  /** A highlight whose centre is closer than half the display to the
      screenshot's start pins the window to the start on every axis where the
      display fits; one closer than half the display to the screenshot's end
      pins it to the end on every axis, fitting or not. */
  lemma PositionPinsToEdges(highlight: Rect, display: Size, screenshot: Size)
    ensures var c := RectCenterPoint(highlight);
            var o := GetScreenshotPositionDetails(highlight, display, screenshot).screenshotPositionInDisplayArea;
            && (display.width <= screenshot.width && c.x < display.width / 2.0 ==> o.x == 0.0)
            && (display.height <= screenshot.height && c.y < display.height / 2.0 ==> o.y == 0.0)
            && (c.x > screenshot.width - display.width / 2.0 ==> o.x == screenshot.width - display.width)
            && (c.y > screenshot.height - display.height / 2.0 ==> o.y == screenshot.height - display.height)
  {
  }

  /** The window is exactly one of: centred on the highlight, pinned to the
      start, or pinned to the end of the screenshot (left/right axis; the
      top/bottom axis is the same function of its own arguments). */
  lemma VisibleEdgeTrichotomy(center: real, display: real, screenshot: real)
    requires display <= screenshot
    ensures var e := VisibleEdge(center, display, screenshot);
            && (e + display / 2.0 == center <==> 0.0 <= center - display / 2.0 <= screenshot - display)
            && (center - display / 2.0 < 0.0 ==> e == 0.0)
            && (center - display / 2.0 > screenshot - display ==> e == screenshot - display)
  {
  }

  /** An element that lies inside the screenshot and is no larger than the
      display area is shown whole: its offset keeps it inside the display. */
  lemma HighlightFullyVisible(highlight: Rect, display: Size, screenshot: Size)
    requires 0.0 <= highlight.left && highlight.Right() <= screenshot.width
    requires 0.0 <= highlight.top && highlight.Bottom() <= screenshot.height
    requires highlight.width <= display.width && highlight.height <= display.height
    ensures var h := GetScreenshotPositionDetails(highlight, display, screenshot).highlightPositionInDisplayArea;
            && 0.0 <= h.x && h.x + highlight.width <= display.width
            && 0.0 <= h.y && h.y + highlight.height <= display.height
  {
  }

  /** An element at the screenshot's top-left corner, shown in a 412x300
      display area: the window is pinned to the corner and the element keeps
      its own coordinates as its offset. */
  lemma PositionNearTopLeftCorner()
    ensures GetScreenshotPositionDetails(Rect(5.0, 5.0, 10.0, 10.0), Size(412.0, 300.0), Size(1200.0, 2000.0))
            == PositionDetails(Point(0.0, 0.0), Point(5.0, 5.0))
  {
    assert VisibleEdge(10.0, 412.0, 1200.0) == 0.0;
    assert VisibleEdge(10.0, 300.0, 2000.0) == 0.0;
  }
}

=== FILE: render.dfy ===
/** The geometry the element-screenshot preview is drawn from: the screenshot
    is shown as the background of a fixed 412x300 display area, a marker box is
    placed over the highlighted element, and a clip path masks everything
    else. Only the numbers are modelled; the DOM and style strings are not. */
module ElementScreenshot {
  import opened Geometry
  import opened ScreenshotPosition
  import opened ClipPath

  /** The fixed size of the preview's display area, in pixels. */
  const DisplayAreaSize: Size := Size(412.0, 300.0)

  /** Everything the preview is drawn from. `backgroundPosition` is the CSS
      background offset of the screenshot, `marker` the highlighted element in
      display-area pixels, `clip` its box as fractions of the display area and
      `clipPath` the polygons of the mask. */
  datatype Preview = Preview(
    imageSize: Size,
    backgroundPosition: Point,
    marker: Rect,
    clip: ClipFractions,
    clipPath: seq<Quad>)

  /** Lays the preview out for the element whose bounding box is
      `boundingRect` on a full-page screenshot of size `screenshot`. */
  function Render(boundingRect: Rect, screenshot: Size): (v: Preview)
    ensures v.imageSize == DisplayAreaSize
    ensures v.marker.width == boundingRect.width && v.marker.height == boundingRect.height
    // The screenshot is shifted by the background offset, so the marker
    // falls exactly on the element's pixels of the screenshot.
    ensures v.marker.left - v.backgroundPosition.x == boundingRect.left
    ensures v.marker.top - v.backgroundPosition.y == boundingRect.top
    // The background never scrolls past the screenshot's edges.
    ensures DisplayAreaSize.width <= screenshot.width ==>
      DisplayAreaSize.width - screenshot.width <= v.backgroundPosition.x <= 0.0
    ensures DisplayAreaSize.height <= screenshot.height ==>
      DisplayAreaSize.height - screenshot.height <= v.backgroundPosition.y <= 0.0
    // Centring: where the window that centres the element fits inside the
    // screenshot, the marker's centre is the display area's centre.
    ensures var c := RectCenterPoint(boundingRect);
            0.0 <= c.x - DisplayAreaSize.width / 2.0 <= screenshot.width - DisplayAreaSize.width ==>
              v.marker.left + v.marker.width / 2.0 == DisplayAreaSize.width / 2.0
    ensures var c := RectCenterPoint(boundingRect);
            0.0 <= c.y - DisplayAreaSize.height / 2.0 <= screenshot.height - DisplayAreaSize.height ==>
              v.marker.top + v.marker.height / 2.0 == DisplayAreaSize.height / 2.0
    // Pinning: an element near the screenshot's start shows the start (where
    // the display fits); one near its end shows the end (on every axis).
    ensures var c := RectCenterPoint(boundingRect);
            DisplayAreaSize.width <= screenshot.width && c.x < DisplayAreaSize.width / 2.0 ==>
              v.backgroundPosition.x == 0.0
    ensures var c := RectCenterPoint(boundingRect);
            DisplayAreaSize.height <= screenshot.height && c.y < DisplayAreaSize.height / 2.0 ==>
              v.backgroundPosition.y == 0.0
    ensures var c := RectCenterPoint(boundingRect);
            c.x > screenshot.width - DisplayAreaSize.width / 2.0 ==>
              v.backgroundPosition.x == DisplayAreaSize.width - screenshot.width
    ensures var c := RectCenterPoint(boundingRect);
            c.y > screenshot.height - DisplayAreaSize.height / 2.0 ==>
              v.backgroundPosition.y == DisplayAreaSize.height - screenshot.height
    ensures v.clip == GetClipFractions(v.marker, v.imageSize)
    ensures v.clipPath == ClipPolygons(v.clip)
  {
    var details := GetScreenshotPositionDetails(boundingRect, DisplayAreaSize, screenshot);
    var origin := details.screenshotPositionInDisplayArea;
    var offset := details.highlightPositionInDisplayArea;
    var marker := Rect(offset.x, offset.y, boundingRect.width, boundingRect.height);
    var clip := GetClipFractions(marker, DisplayAreaSize);
    Preview(DisplayAreaSize, Point(-origin.x, -origin.y), marker, clip, ClipPolygons(clip))
  }

  /** For an element inside the screenshot and no larger than the display
      area, the mask darkens precisely the display-area pixels outside the
      marker: a point of the display area, given in clip units, is masked
      iff its pixel position is not strictly inside the marker. */
  lemma RenderMasksAllButElement(boundingRect: Rect, screenshot: Size, p: Point)
    requires boundingRect.WellFormed()
    requires 0.0 <= boundingRect.left && boundingRect.Right() <= screenshot.width
    requires 0.0 <= boundingRect.top && boundingRect.Bottom() <= screenshot.height
    requires boundingRect.width <= DisplayAreaSize.width
    requires boundingRect.height <= DisplayAreaSize.height
    requires InUnitSquare(p)
    ensures var v := Render(boundingRect, screenshot);
            InClipRegion(v.clipPath, p) <==>
              !v.marker.StrictlyContains(Point(p.x * DisplayAreaSize.width, p.y * DisplayAreaSize.height))
  {
    var v := Render(boundingRect, screenshot);
    HighlightFullyVisible(boundingRect, DisplayAreaSize, screenshot);
    ClipFractionsInUnitRange(v.marker, DisplayAreaSize);
    ClipRegionIsComplementOfBox(v.clip, p);
  }

  /** For every element, fitting or not, the mask darkens the interior of
      the display area except the marker: a point strictly inside the display
      area, given in clip units, is masked iff its pixel position is not
      strictly inside the marker. */
  lemma RenderMasksInteriorAllButElement(boundingRect: Rect, screenshot: Size, p: Point)
    requires InsideUnitSquare(p)
    ensures var v := Render(boundingRect, screenshot);
            InClipRegion(v.clipPath, p) <==>
              !v.marker.StrictlyContains(Point(p.x * DisplayAreaSize.width, p.y * DisplayAreaSize.height))
  {
    var v := Render(boundingRect, screenshot);
    ScaleOrder(v.clip.left, p.x, DisplayAreaSize.width);
    ScaleOrder(p.x, v.clip.right, DisplayAreaSize.width);
    ScaleOrder(v.clip.top, p.y, DisplayAreaSize.height);
    ScaleOrder(p.y, v.clip.bottom, DisplayAreaSize.height);
    if InsideBox(v.clip, p) {
      ClipSparesBoxInterior(v.clip, p);
    } else {
      ClipCoversOutsideBox(v.clip, p);
    }
  }

  /** An element near the screenshot's right edge: the window is pinned to
      that edge horizontally and centred vertically. */
  lemma RenderNearRightEdge()
    ensures var v := Render(Rect(1000.0, 800.0, 50.0, 30.0), Size(1200.0, 2000.0));
            && v.backgroundPosition == Point(-788.0, -665.0)
            && v.marker == Rect(212.0, 135.0, 50.0, 30.0)
            && v.clip == ClipFractions(0.45, 0.55, 53.0 / 103.0, 131.0 / 206.0)
  {
  }

  /** The clip fractions of a 50x30 marker at (212, 150) in the display area. */
  lemma ClipFractionsOfMarker()
    ensures GetClipFractions(Rect(212.0, 150.0, 50.0, 30.0), DisplayAreaSize)
            == ClipFractions(0.5, 0.6, 53.0 / 103.0, 131.0 / 206.0)
  {
  }
}
